=== FILE: README.md ===
# TikTok live notifier: status machine and notification dedup

This project models the core of a background watcher for one TikTok creator. The watcher
polls the creator's live room and connects to it when the room has more than one viewer.
It posts a Discord message whenever a broadcast's `create_time` differs from the one it last
stored, under the `lastUpdate` key of a persisted key/value store.

The model is functional. An immutable `Monitor.State` holds four things:
- the status word (`offline`, `connected`, `disconnected`, `ended`);
- the last viewer count;
- the store, as a `map<string, int>`;
- the messages sent so far, as an append-only sequence.

Each tick driver and each event handler is a pure function from state to state:
- `runViaInterval` and `runViaExpress` are in module Ticks;
- the `connected`, `disconnected` and `roomUser` handlers are in module Events.

The library's answers are parameters of a tick: the room-info reply, the connect reply, and
the reply to the extra room-info fetch that a debug connect makes. A tick also returns the
list of library calls it made. That is how the model can say that a tick "connects only
when" something holds.

Module Session runs any interleaving of ticks and events, in order, and proves the dedup
guarantees over whole runs. Module Scenarios pins down concrete runs. Module AsWritten
holds the two catch blocks exactly as written (see Findings).

The dedup in the code is one equality test. On a `connected` event, the broadcast's
`create_time` is compared with the stored `lastUpdate`. A missing key counts as different.
The key is overwritten and a message is sent only when the two differ.

The code has no minimum-viewer threshold, no minimum update interval, no second
`lastUpdateStartedTime` key, no passive or proxied mode and no jittered timer. The model
follows the code and has none of them either. Two consequences are proved in module
Scenarios:
- a start time reported three seconds later is announced again;
- two alternating start times are announced every time.

Nothing in the code ever assigns `ended`. `Session.EndedIsNeverReached` proves that the
status cannot reach it.

## Model

| member | source | states |
|---|---|---|
| KeyValue.Get | app/interfaces/iDatabaseService.ts:3 | `get` answers a value exactly when the key is present, and that value is the stored one |
| KeyValue.Set | app/interfaces/iDatabaseService.ts:2 | after `set`, the key answers the written value, every other key answers as before, and no other key appears |
| KeyValue.Delete | app/interfaces/iDatabaseService.ts:4 | after `delete`, the key is absent and every other key answers as before |
| KeyValue.Clear | app/interfaces/iDatabaseService.ts:5 | after `clear`, every key is absent |
| KeyValue.GetAfterSet | app/interfaces/iDatabaseService.ts:2-3 | reading back a key gives the last value written to it; writing twice is the same as writing the second value once |
| Monitor.Initial | app/services/tiktokService.ts:13-32 | a new service starts offline with 0 viewers and nothing sent, over whatever the store already holds |
| Ticks.FetchRoomInfo | app/services/tiktokService.ts:145-190 | returns the room info exactly when the fetch succeeded, and then sets `viewers` to `user_count`; any failure returns `false` and leaves the state, `viewers` included, unchanged; status, store and outbox are never touched |
| Ticks.ConnectToChat | app/services/tiktokService.ts:98-125 | returns true exactly when `connect()` resolved, and false on every failure, "LIVE has ended" included; never changes status, store or outbox; changes `viewers` only through the debug room-info fetch after a successful connect |
| Ticks.Poll | app/services/tiktokService.ts:63-76 | issues exactly: the room-info fetch, then `connect` only when the refreshed (or, after a failed fetch, stale) viewer count is above one, then the extra fetch only after a successful debug connect; `viewers` ends at the decided count, or at the extra fetch's count after a successful debug connect; assigns no status |
| Ticks.IntervalTick | app/services/tiktokService.ts:62-91 | offline polls with exactly the calls and viewer count of the poll and stays offline; connected goes offline exactly when `viewers` is 0, with `viewers` unchanged and no calls; disconnected makes only the 1800 s cooldown and goes offline; ended is left unchanged; no tick writes the store or sends a message |
| Ticks.ExpressTick | app/services/tiktokService.ts:39-50 | whatever the status: issues exactly the room-info fetch, `connect` when the viewer count is above one, the debug extra fetch after a successful debug connect, and last a `disconnect` exactly when that connect succeeded; `viewers` as for the poll; never assigns status, writes the store or sends |
| Ticks.ExpressIsOfflineIntervalThenDisconnect | app/services/tiktokService.ts:39-46 | on an offline service both drivers reach the same state; the request-driven one only adds a disconnect after a successful connect |
| Events.OnConnected | app/services/tiktokService.ts:219-232 | status becomes connected; afterwards `lastUpdate` holds the start time; exactly one message is appended iff the start differed from the stored `lastUpdate`, otherwise store and outbox are unchanged; no key but `lastUpdate` changes |
| Events.OnDisconnected | app/services/tiktokService.ts:247-248 | status becomes disconnected from any status; viewers, store and outbox are unchanged |
| Events.OnRoomUser | app/services/tiktokService.ts:261-262 | `viewers` becomes the reported count; status, store and outbox are unchanged |
| Events.Handle | app/services/tiktokService.ts:266-276 | each event goes to the handler registered for it (lines 28-31); the `error` handler leaves the state unchanged; only a `connected` event can touch the store or the outbox |
| Events.ConnectedTwiceSendsAtMostOnce | app/services/tiktokService.ts:229-231 | handling the same `connected` event twice sends at most one message; the second handling changes nothing; `lastUpdate` ends equal to the start |
| Session.Step | app/services/tiktokService.ts:217-264 | one input sends at most one message, always the configured one; only a `connected` event sends or writes the store, and only to `lastUpdate`, which then holds its start; it sends exactly when that start was new |
| Session.Run | app/services/tiktokService.ts:229-232 | over any run, sent messages are never retracted, only the configured message is appended, no more messages are sent than there are `connected` events, and no key but `lastUpdate` changes |
| Session.LastUpdateIsLatestStart | app/services/tiktokService.ts:229-230 | after any run, `lastUpdate` holds the start of the last `connected` event, or its earlier value when the run had none |
| Session.AnnouncedStartIsNotRepeated | app/services/tiktokService.ts:229-231 | once a start is stored, a run whose `connected` events all carry that start sends nothing and keeps the start stored |
| Session.SameStartNotifiesAtMostOnce | app/services/tiktokService.ts:229-231 | a run whose `connected` events all carry one start sends at most one message, and none if that start was already stored |
| Session.EndedIsNeverReached | app/services/tiktokService.ts:62-91 | the ticks assign only `offline`, and the events only `connected` and `disconnected`, so a run starting in another status never reaches it |
| AsWritten.RoomInfoAsWritten | app/services/tiktokService.ts:179-189 | as written, the catch block rejects exactly when the failure has no string message; otherwise it returns what the intended wrapper returns |
| AsWritten.ConnectToChatAsWritten | app/services/tiktokService.ts:112-124 | as written, the wrapper rejects exactly when the connect failure has no string message; it reports true only after a successful connect |
| AsWritten.AsWrittenAgreeWhenErrorsHaveMessages | app/services/tiktokService.ts:112-189 | when every failure carries a string message, both wrappers as written return exactly what the intended wrappers return |
| AsWritten.MessagelessRejectionEscapes | app/services/tiktokService.ts:180 | a message-less failure escapes both wrappers as written, where the intended wrappers return false; in debug mode it turns a successful connect into false |
| Scenarios.FirstBroadcastNotifiesOnce | app/services/tiktokService.ts:62-82 | on an empty store: a tick with 50 viewers calls room info and then connect, the `connected` event sends one message and stores start 1000, and the next tick stays connected |
| Scenarios.NearEqualStartsBothNotify | app/services/tiktokService.ts:229 | starts 1000 and 1003 are both announced, because dedup is an equality test |
| Scenarios.AlternatingStartsNotifyAgain | app/services/tiktokService.ts:229-231 | starts 1000, 2000, 1000 send three messages, because only the last start is kept |
| Scenarios.RestartDoesNotRepeat | app/services/tiktokService.ts:224-229 | a fresh service over a store already holding start 1000 sends nothing for that broadcast |
| Scenarios.NotLiveKeepsOffline | app/services/tiktokService.ts:63-66 | a failed fetch on a fresh service leaves the state as it was and makes no connect call |
| Scenarios.StaleViewersStillConnect | app/services/tiktokService.ts:64-67 | after a failed fetch, a stale viewer count above one still makes the tick call connect |
| Scenarios.ViewersDropToZeroGoesOffline | app/services/tiktokService.ts:78-82 | while connected, a `roomUser` report of 0 makes the next tick go offline |
| Scenarios.DisconnectThenTickGoesOffline | app/services/tiktokService.ts:83-86 | after a `disconnected` event, the next interval tick ends offline, whatever the earlier status |

## Left out

- Console output and logger calls: colour codes, time formatting, and the "started less than 5 minutes ago" test. They only decide what is printed or logged.
- The inverted test at app/services/tiktokService.ts:113, which prints "Stream has ended" for every error except "LIVE has ended". It only affects printing.
- The chat listener that a debug connect registers: it only prints.
- The blocking `sleep(1800)`: it appears as a `Cooldown(1800)` call. Time is not modelled.
- The awaited `get` and the un-awaited `set` and `sendMessage` of the `connected` handler are modelled as steps that complete in order. Two `connected` events that interleave at the awaited `get` could both send; the model does not cover that race.
- Delivery failures of the Discord message: the sender swallows them and the core cannot observe them.
- The discord.js client, the Keyv backend and the file logger: they are replaced by an outbox sequence and a `map`.
- The interval-timer glue in app/app.ts: it calls a `run()` method and a zero-argument constructor that the service does not have.
- `disconnectFromChat`: it appears only as a `Disconnect` call. Its caller ignores its result, and it catches every error without reading `err.message`.
- The `error` event handler: it only logs, so it leaves the state unchanged.
- The `default` branch of the status switch: the service only ever assigns `offline`, `connected` and `disconnected`, so it is unreachable.
- Ticks.FetchRoomInfo: assumes the logging code after `viewers` is set cannot throw. With debug on it reads `owner.bio_description` and `stream_url.hls_pull_url` when the broadcast started less than five minutes ago, and at any time on the extra fetch of a debug connect, which passes `showIntro`. With logging on it reads `stream_url.hls_pull_url` under the same conditions. A reply without `owner` or `stream_url` would then make the fetch return false with `viewers` already refreshed; a missing `bio_description` alone does not throw.
- Monitor.State: `user_count` and `create_time` are modelled as integers, and the store holds only integers. Non-numeric or missing counts are not modelled.

## Findings

| source | as written | input that shows it | evidently intended | confidence | as-written member | corrected member |
|---|---|---|---|---|---|---|
| app/services/tiktokService.ts:180 | the catch block of `roomInfo` evaluates `err.message.includes(...)` | `getRoomInfo()` rejects with a value that has no string `message`, e.g. a bare string | return false, as for every other failure | low, not executed; the library normally rejects with Error objects | AsWritten.MessagelessRejectionEscapes | Ticks.FetchRoomInfo |
| app/services/tiktokService.ts:113 | the catch block of `connectToChat` evaluates `err.message.includes(...)` | `connect()` rejects with a value that has no string `message` | return false, as for every other failure | low, not executed; the library normally rejects with Error objects | AsWritten.MessagelessRejectionEscapes | Ticks.ConnectToChat |

=== FILE: aswritten.dfy ===
/**
  The two transport wrappers exactly as their catch blocks are written. Both read
  `err.message.includes(...)` before returning `false`; when the rejection value has no
  string `message`, that read itself throws, so the wrapper rejects instead of returning.
  Module Ticks holds the intended wrappers, which the rest of the model uses.
*/
module AsWritten {
  import opened Common
  import opened Monitor
  import opened Transport
  import Ticks

  /** A call that either returns a value or rejects with a thrown value. */
  datatype Completion<+T> = Returned(value: T) | Rejected(thrown: Thrown)

  /** The error raised by reading `includes` of an undefined `message`. */
  const IncludesOfUndefined: Thrown := WithMessage("Cannot read properties of undefined (reading 'includes')")

  /** `roomInfo` as written: the catch block rejects when the caught value has no message. */
  function RoomInfoAsWritten(s: State, reply: RoomReply): (r: Completion<Ticks.Fetched>)
    ensures r.Rejected? <==> reply == RoomErr(WithoutMessage)
    ensures r.Returned? ==> r.value == Ticks.FetchRoomInfo(s, reply)
  {
    match reply
    case RoomOk(info) => Returned(Ticks.Fetched(s.(viewers := info.userCount), Some(info)))
    case RoomErr(WithMessage(_)) => Returned(Ticks.Fetched(s, None))
    case RoomErr(WithoutMessage) => Rejected(IncludesOfUndefined)
  }

  /**
    `connectToChat` as written: its own catch block rejects on a message-less value, and
    the debug room-info fetch inside its `try` turns such a rejection into `false` even
    though the connect succeeded.
  */
  function ConnectToChatAsWritten(cfg: Config, s: State, connect: ConnectReply, intro: RoomReply)
    : (r: Completion<Ticks.Connection>)
    ensures r.Rejected? <==> connect == ConnectErr(WithoutMessage)
    ensures r.Returned? && r.value.connected ==> connect.ConnectOk?
  {
    match connect
    case ConnectOk(_) =>
      if cfg.debug then
        match RoomInfoAsWritten(s, intro)
        case Returned(f) => Returned(Ticks.Connection(f.state, true))
        case Rejected(_) => Returned(Ticks.Connection(s, false))
      else
        Returned(Ticks.Connection(s, true))
    case ConnectErr(WithMessage(_)) => Returned(Ticks.Connection(s, false))
    case ConnectErr(WithoutMessage) => Rejected(IncludesOfUndefined)
  }

  /** True when every rejection among the replies carries a string message. */
  predicate Classifiable(reply: RoomReply) {
    reply.RoomErr? ==> reply.thrown.WithMessage?
  }

  /** Whenever every rejection carries a message, the wrappers as written return what the intended ones return. */
  lemma AsWrittenAgreeWhenErrorsHaveMessages(cfg: Config, s: State, connect: ConnectReply, room: RoomReply, intro: RoomReply)
    requires Classifiable(room) && Classifiable(intro)
    requires connect.ConnectErr? ==> connect.thrown.WithMessage?
    ensures RoomInfoAsWritten(s, room) == Returned(Ticks.FetchRoomInfo(s, room))
    ensures ConnectToChatAsWritten(cfg, s, connect, intro) == Returned(Ticks.ConnectToChat(cfg, s, connect, intro))
  {
  }

  /**
    The inputs that show the discrepancy: a message-less rejection escapes both wrappers,
    and in debug mode it turns a successful connect into `false`.
  */
  lemma MessagelessRejectionEscapes(cfg: Config, s: State, intro: RoomReply)
    ensures RoomInfoAsWritten(s, RoomErr(WithoutMessage)).Rejected?
    ensures Ticks.FetchRoomInfo(s, RoomErr(WithoutMessage)) == Ticks.Fetched(s, None)
    ensures ConnectToChatAsWritten(cfg, s, ConnectErr(WithoutMessage), intro).Rejected?
    ensures !Ticks.ConnectToChat(cfg, s, ConnectErr(WithoutMessage), intro).connected
    ensures cfg.debug ==>
              && ConnectToChatAsWritten(cfg, s, ConnectOk("room"), RoomErr(WithoutMessage)) == Returned(Ticks.Connection(s, false))
              && Ticks.ConnectToChat(cfg, s, ConnectOk("room"), RoomErr(WithoutMessage)).connected
  {
  }
}

=== FILE: common.dfy ===
/** Small shared vocabulary: an optional value, used where the source answers `undefined` or `false`. */
module Common {

  datatype Option<+T> = None | Some(value: T)
}

=== FILE: events.dfy ===
/**
  The handlers the service registers on the live connection. Each is a pure update of
  the state; the store write and the message send of the `connected` handler are taken
  as completed steps.
*/
module Events {
  import opened Common
  import KeyValue
  import opened Monitor
  import opened Transport

  /** An event the library raises: `connected` carries the broadcast's `create_time`. */
  datatype Event =
    | ConnectedEvent(createTime: int)
    | DisconnectedEvent
    | RoomUserEvent(viewerCount: int)
    | ErrorEvent(thrown: Thrown)

  /** True when `createTime` differs from what the store answers for `lastUpdate` (missing counts as different). */
  predicate IsNewStart(store: KeyValue.Db, createTime: int) {
    KeyValue.Get(store, LastUpdateKey) != Some(createTime)
  }

  /**
    `connected`: status becomes connected; when the start time differs from the stored
    `lastUpdate`, that key is overwritten with it and exactly one message is sent;
    otherwise store and outbox stay as they are.
  */
  function OnConnected(cfg: Config, s: State, createTime: int): (r: State)
    ensures r.status == Connected && r.viewers == s.viewers
    ensures KeyValue.Get(r.store, LastUpdateKey) == Some(createTime)
    ensures r.sent == s.sent + [cfg.message] <==> IsNewStart(s.store, createTime)
    ensures r.sent == s.sent <==> !IsNewStart(s.store, createTime)
    ensures r.sent == s.sent ==> r.store == s.store
    ensures r.store - {LastUpdateKey} == s.store - {LastUpdateKey}
  {
    if IsNewStart(s.store, createTime) then
      s.(status := Connected,
         store := KeyValue.Set(s.store, LastUpdateKey, createTime),
         sent := s.sent + [cfg.message])
    else
      s.(status := Connected)
  }

  /** `disconnected`: status becomes disconnected from any status; nothing else changes. */
  function OnDisconnected(s: State): (r: State)
    ensures r.status == Disconnected
    ensures r.viewers == s.viewers && r.store == s.store && r.sent == s.sent
  {
    s.(status := Disconnected)
  }

  /** `roomUser`: the viewer count becomes the reported one; nothing else changes. */
  function OnRoomUser(s: State, viewerCount: int): (r: State)
    ensures r.viewers == viewerCount
    ensures r.status == s.status && r.store == s.store && r.sent == s.sent
  {
    s.(viewers := viewerCount)
  }

  /** Dispatch of one event to the handler registered for it; the `error` handler only logs. */
  function Handle(cfg: Config, s: State, e: Event): (r: State)
    ensures e.ConnectedEvent? ==> r == OnConnected(cfg, s, e.createTime)
    ensures e.DisconnectedEvent? ==> r == OnDisconnected(s)
    ensures e.RoomUserEvent? ==> r == OnRoomUser(s, e.viewerCount)
    ensures e.ErrorEvent? ==> r == s
    ensures !e.ConnectedEvent? ==> r.store == s.store && r.sent == s.sent
  {
    match e
    case ConnectedEvent(t) => OnConnected(cfg, s, t)
    case DisconnectedEvent => OnDisconnected(s)
    case RoomUserEvent(n) => OnRoomUser(s, n)
    case ErrorEvent(_) => s
  }

  /**
    Handling the same `connected` event twice in succession sends at most one message,
    the second handling changes nothing, and afterwards `lastUpdate` is the start time.
  */
  lemma ConnectedTwiceSendsAtMostOnce(cfg: Config, s: State, createTime: int)
    ensures var once := OnConnected(cfg, s, createTime);
            var twice := OnConnected(cfg, once, createTime);
            && twice == once
            && |twice.sent| <= |s.sent| + 1
            && KeyValue.Get(twice.store, LastUpdateKey) == Some(createTime)
  {
  }
}

=== FILE: keyvalue.dfy ===
/**
  The persisted key/value store behind the database service, reduced to the map it denotes.
  Only broadcast start timestamps (epoch seconds) are ever stored by the core, so values are `int`.
*/
module KeyValue {
  import opened Common

  type Db = map<string, int>

  /** `get(key)`: the stored value, or `None` where the store answers `undefined`. */
  function Get(db: Db, key: string): (r: Option<int>)
    ensures r.Some? <==> key in db
    ensures r.Some? ==> r.value == db[key]
  {
    if key in db then Some(db[key]) else None
  }

  /** `set(key, value)`: afterwards `key` answers `value` and every other key answers as before. */
  function Set(db: Db, key: string, value: int): (r: Db)
    ensures Get(r, key) == Some(value)
    ensures forall k :: k != key ==> Get(r, k) == Get(db, k)
    ensures r.Keys == db.Keys + {key}
  {
    db[key := value]
  }

  /** `delete(key)`: afterwards `key` is absent and every other key answers as before. */
  function Delete(db: Db, key: string): (r: Db)
    ensures Get(r, key) == None
    ensures forall k :: k != key ==> Get(r, k) == Get(db, k)
    ensures r.Keys == db.Keys - {key}
  {
    db - {key}
  }

  /** `clear()`: afterwards every key is absent. */
  function Clear(db: Db): (r: Db)
    ensures forall k :: Get(r, k) == None
  {
    map[]
  }

  /** Reading a key back after writing it yields the value written, whatever was written before. */
  lemma GetAfterSet(db: Db, key: string, first: int, second: int)
    ensures Get(Set(db, key, second), key) == Some(second)
    ensures Get(Set(Set(db, key, first), key, second), key) == Some(second)
    ensures Set(Set(db, key, first), key, second) == Set(db, key, second)
  {
  }
}

=== FILE: monitor.dfy ===
/** The in-memory state of the watcher and the configuration it reads. */
module Monitor {
  import KeyValue

  /** The four status words the service compares against; it assigns only offline, connected and disconnected. */
  datatype Status = Offline | Connected | Disconnected | Ended

  /**
    Everything a tick or an event can change: the status word, the last viewer count,
    the persisted store, and the messages handed to the chat channel so far (append-only).
  */
  datatype State = State(status: Status, viewers: int, store: KeyValue.Db, sent: seq<string>)

  /** `debug` switches on the extra room-info fetch after a connect; `message` is the notification text. */
  datatype Config = Config(debug: bool, message: string)

  /** The store key holding the start time of the last announced broadcast. */
  const LastUpdateKey: string := "lastUpdate"

  /** The blocking wait, in seconds, of a tick that finds the status `disconnected`. */
  const CooldownSeconds: nat := 1800

  /** A freshly constructed service: offline with no viewers, over whatever the store already holds. */
  function Initial(store: KeyValue.Db): (r: State)
    ensures r.status == Offline && r.viewers == 0 && r.sent == []
    ensures r.store == store
  {
    State(Offline, 0, store, [])
  }
}

=== FILE: scenarios.dfy ===
/** Concrete runs of the service that pin down the behaviour the dedup gives. */
module Scenarios {
  import opened Common
  import KeyValue
  import opened Monitor
  import opened Transport
  import opened Ticks
  import opened Events
  import opened Session

  const cfg: Config := Config(false, "LIVE now")

  /** A live room with fifty viewers that started at `createTime`, and a connect that succeeds. */
  function LiveRoom(createTime: int): Replies {
    Replies(RoomOk(RoomInfo(50, createTime)), ConnectOk("room"), RoomErr(WithMessage("unused")))
  }

  /**
    A first broadcast on an empty store: the tick connects, the `connected` event sends one
    message and records the start, and the next tick keeps the service connected.
  */
  lemma FirstBroadcastNotifiesOnce()
    ensures IntervalTick(cfg, Initial(map[]), LiveRoom(1000)).calls == [GetRoomInfo, Connect]
    ensures var r := Run(cfg, Initial(map[]), [IntervalRun(LiveRoom(1000)), Deliver(ConnectedEvent(1000)), IntervalRun(LiveRoom(1000))]);
            && r.status == Connected
            && r.viewers == 50
            && r.sent == [cfg.message]
            && KeyValue.Get(r.store, LastUpdateKey) == Some(1000)
  {
  }

  /**
    Dedup is an equality test on the start time: a reconnect reporting a start three
    seconds later counts as a new broadcast and is announced again.
  */
  lemma NearEqualStartsBothNotify()
    ensures Run(cfg, Initial(map[]), [Deliver(ConnectedEvent(1000)), Deliver(ConnectedEvent(1003))]).sent
            == [cfg.message, cfg.message]
  {
  }

  /** Only the last start is remembered, so alternating start times are announced every time. */
  lemma AlternatingStartsNotifyAgain()
    ensures |Run(cfg, Initial(map[]), [Deliver(ConnectedEvent(1000)), Deliver(ConnectedEvent(2000)), Deliver(ConnectedEvent(1000))]).sent| == 3
  {
  }

  /** A restart over a store that already holds the start time sends nothing for that broadcast. */
  lemma RestartDoesNotRepeat()
    ensures Run(cfg, Initial(map[LastUpdateKey := 1000]), [IntervalRun(LiveRoom(1000)), Deliver(ConnectedEvent(1000))]).sent == []
  {
  }

  /** A failed room-info fetch on a fresh service: it stays offline, nothing else changes, no connect is tried. */
  lemma NotLiveKeepsOffline(store: KeyValue.Db, thrown: Thrown)
    ensures var t := IntervalTick(cfg, Initial(store), Replies(RoomErr(thrown), ConnectOk("room"), RoomErr(thrown)));
            t.state == Initial(store) && t.calls == [GetRoomInfo]
  {
  }

  /** A failed fetch keeps a stale viewer count, so a connect is still attempted on it. */
  lemma StaleViewersStillConnect(s: State, thrown: Thrown)
    requires s.status == Offline && s.viewers > 1
    ensures Connect in IntervalTick(cfg, s, Replies(RoomErr(thrown), ConnectErr(thrown), RoomErr(thrown))).calls
  {
  }

  /** While connected, a `roomUser` report of zero viewers makes the next tick go offline. */
  lemma ViewersDropToZeroGoesOffline(s: State, replies: Replies)
    requires s.status == Connected
    ensures Run(cfg, s, [Deliver(RoomUserEvent(0)), IntervalRun(replies)]).status == Offline
  {
    var inputs := [Deliver(RoomUserEvent(0)), IntervalRun(replies)];
    var heard := Step(cfg, s, inputs[0]);
    assert heard.status == Connected && heard.viewers == 0;
    assert inputs[1..] == [IntervalRun(replies)];
    assert Run(cfg, heard, inputs[1..]) == Run(cfg, Step(cfg, heard, inputs[1]), []);
  }

  /** A disconnect followed by a tick lands offline after the cooldown, whatever the prior status. */
  lemma DisconnectThenTickGoesOffline(s: State, replies: Replies)
    ensures Run(cfg, s, [Deliver(DisconnectedEvent), IntervalRun(replies)]).status == Offline
  {
    var inputs := [Deliver(DisconnectedEvent), IntervalRun(replies)];
    var heard := Step(cfg, s, inputs[0]);
    assert heard.status == Disconnected;
    assert inputs[1..] == [IntervalRun(replies)];
    assert Run(cfg, heard, inputs[1..]) == Run(cfg, Step(cfg, heard, inputs[1]), []);
  }
}

=== FILE: session.dfy ===
/**
  A run of the service: any interleaving of interval ticks, request-driven ticks and
  library events, applied in order. The lemmas here are the dedup guarantees over a
  whole run.
*/
module Session {
  import opened Common
  import KeyValue
  import opened Monitor
  import opened Ticks
  import opened Events

  datatype Input =
    | IntervalRun(replies: Replies)
    | ExpressRun(replies: Replies)
    | Deliver(event: Event)

  /** The broadcast start time an input announces: only a `connected` event carries one. */
  function StartOf(i: Input): Option<int> {
    if i.Deliver? && i.event.ConnectedEvent? then Some(i.event.createTime) else None
  }

  /** The number of `connected` events among the inputs. */
  function ConnectedCount(inputs: seq<Input>): nat
    decreases |inputs|
  {
    if |inputs| == 0 then 0
    else (if StartOf(inputs[0]).Some? then 1 else 0) + ConnectedCount(inputs[1..])
  }

  /**
    The start time of the last `connected` event among the inputs, or `prior` when there
    is none: an independent account of what `lastUpdate` holds after a run.
  */
  function LatestStart(inputs: seq<Input>, prior: Option<int>): Option<int>
    decreases |inputs|
  {
    if |inputs| == 0 then prior
    else LatestStart(inputs[1..], if StartOf(inputs[0]).Some? then StartOf(inputs[0]) else prior)
  }

  /** True when every `connected` event among the inputs carries the start time `t`. */
  predicate OnlyStart(inputs: seq<Input>, t: int) {
    forall j | 0 <= j < |inputs| :: StartOf(inputs[j]).Some? ==> StartOf(inputs[j]).value == t
  }

  /**
    One input. Only a `connected` event may send (one message at most, always the
    configured one) or write the store, and then only the `lastUpdate` key.
  */
  function Step(cfg: Config, s: State, i: Input): (r: State)
    ensures s.sent <= r.sent
    ensures |r.sent| <= |s.sent| + 1
    ensures forall k | |s.sent| <= k < |r.sent| :: r.sent[k] == cfg.message
    ensures r.store - {LastUpdateKey} == s.store - {LastUpdateKey}
    ensures StartOf(i).None? ==> r.store == s.store && r.sent == s.sent
    ensures StartOf(i).Some? ==> KeyValue.Get(r.store, LastUpdateKey) == StartOf(i)
    ensures StartOf(i).Some? ==> (|r.sent| == |s.sent| + 1 <==> IsNewStart(s.store, StartOf(i).value))
  {
    match i
    case IntervalRun(replies) => IntervalTick(cfg, s, replies).state
    case ExpressRun(replies) => ExpressTick(cfg, s, replies).state
    case Deliver(e) => Handle(cfg, s, e)
  }

  /**
    A run never retracts a message, appends only the configured message, sends no more
    messages than it has `connected` events, and leaves every key but `lastUpdate` alone.
  */
  function Run(cfg: Config, s: State, inputs: seq<Input>): (r: State)
    ensures s.sent <= r.sent
    ensures forall k | |s.sent| <= k < |r.sent| :: r.sent[k] == cfg.message
    ensures |r.sent| <= |s.sent| + ConnectedCount(inputs)
    ensures r.store - {LastUpdateKey} == s.store - {LastUpdateKey}
    ensures ConnectedCount(inputs) == 0 ==> r.store == s.store && r.sent == s.sent
    decreases |inputs|
  {
    if |inputs| == 0 then s else Run(cfg, Step(cfg, s, inputs[0]), inputs[1..])
  }

  /** After any run, `lastUpdate` holds the start time of the last `connected` event, if there was one. */
  lemma {:induction false} LastUpdateIsLatestStart(cfg: Config, s: State, inputs: seq<Input>)
    ensures KeyValue.Get(Run(cfg, s, inputs).store, LastUpdateKey)
            == LatestStart(inputs, KeyValue.Get(s.store, LastUpdateKey))
    decreases |inputs|
  {
    if |inputs| > 0 {
      LastUpdateIsLatestStart(cfg, Step(cfg, s, inputs[0]), inputs[1..]);
    }
  }

  /** Once `t` is the stored start, a run whose `connected` events all carry `t` sends nothing. */
  lemma {:induction false} AnnouncedStartIsNotRepeated(cfg: Config, s: State, inputs: seq<Input>, t: int)
    requires KeyValue.Get(s.store, LastUpdateKey) == Some(t)
    requires OnlyStart(inputs, t)
    ensures Run(cfg, s, inputs).sent == s.sent
    ensures KeyValue.Get(Run(cfg, s, inputs).store, LastUpdateKey) == Some(t)
    decreases |inputs|
  {
    if |inputs| > 0 {
      var next := Step(cfg, s, inputs[0]);
      assert StartOf(inputs[0]).Some? ==> StartOf(inputs[0]).value == t;
      assert OnlyStart(inputs[1..], t) by {
        forall j | 0 <= j < |inputs[1..]|
          ensures StartOf(inputs[1..][j]).Some? ==> StartOf(inputs[1..][j]).value == t
        {
          assert inputs[1..][j] == inputs[j + 1];
        }
      }
      AnnouncedStartIsNotRepeated(cfg, next, inputs[1..], t);
    }
  }

  /**
    A run whose `connected` events all carry the same start time `t` sends at most one
    message, and none at all when `t` was already the stored start.
  */
  lemma {:induction false} SameStartNotifiesAtMostOnce(cfg: Config, s: State, inputs: seq<Input>, t: int)
    requires OnlyStart(inputs, t)
    ensures |Run(cfg, s, inputs).sent| <= |s.sent| + 1
    ensures KeyValue.Get(s.store, LastUpdateKey) == Some(t) ==> Run(cfg, s, inputs).sent == s.sent
    decreases |inputs|
  {
    if KeyValue.Get(s.store, LastUpdateKey) == Some(t) {
      AnnouncedStartIsNotRepeated(cfg, s, inputs, t);
    } else if |inputs| > 0 {
      var next := Step(cfg, s, inputs[0]);
      assert OnlyStart(inputs[1..], t) by {
        forall j | 0 <= j < |inputs[1..]|
          ensures StartOf(inputs[1..][j]).Some? ==> StartOf(inputs[1..][j]).value == t
        {
          assert inputs[1..][j] == inputs[j + 1];
        }
      }
      if StartOf(inputs[0]).Some? {
        assert StartOf(inputs[0]).value == t;
        AnnouncedStartIsNotRepeated(cfg, next, inputs[1..], t);
      } else {
        SameStartNotifiesAtMostOnce(cfg, next, inputs[1..], t);
      }
    }
  }

  /** No tick or event assigns `ended`, so a run that starts elsewhere never reaches it. */
  lemma {:induction false} EndedIsNeverReached(cfg: Config, s: State, inputs: seq<Input>)
    requires s.status != Ended
    ensures Run(cfg, s, inputs).status != Ended
    decreases |inputs|
  {
    if |inputs| > 0 {
      EndedIsNeverReached(cfg, Step(cfg, s, inputs[0]), inputs[1..]);
    }
  }
}

=== FILE: ticks.dfy ===
/**
  The transport wrappers (`roomInfo`, `connectToChat`) and the two tick drivers
  (`runViaInterval`, `runViaExpress`) of the service. A tick reads its transport
  replies from `Replies` and reports the calls it issued; the state changes the
  library's events cause are in module Events.
*/
module Ticks {
  import opened Common
  import opened Monitor
  import opened Transport

  /** `roomInfo()`: the state afterwards and the value returned (the room info, or `false` as `None`). */
  datatype Fetched = Fetched(state: State, info: Option<RoomInfo>)

  /** `connectToChat()`: the state afterwards and the boolean returned. */
  datatype Connection = Connection(state: State, connected: bool)

  /** A poll: the state afterwards, the calls issued, and whether a connect succeeded. */
  datatype Polled = Polled(state: State, calls: seq<Call>, connected: bool)

  /** A tick: the state afterwards and the calls issued. */
  datatype TickResult = TickResult(state: State, calls: seq<Call>)

  /**
    The replies the library gives during one tick, each consumed only if the call is made:
    the room-info fetch, the connect, and the extra room-info fetch a debug connect makes.
  */
  datatype Replies = Replies(room: RoomReply, connect: ConnectReply, intro: RoomReply)

  /**
    `roomInfo`: a successful fetch refreshes `viewers` from `user_count`; any failure is
    caught, returns `false` and leaves the state as it was.
  */
  function FetchRoomInfo(s: State, reply: RoomReply): (r: Fetched)
    ensures r.info.Some? <==> reply.RoomOk?
    ensures reply.RoomOk? ==> r.info == Some(reply.info) && r.state.viewers == reply.info.userCount
    ensures reply.RoomErr? ==> r.state == s
    ensures r.state.status == s.status && r.state.store == s.store && r.state.sent == s.sent
  {
    match reply
    case RoomOk(info) => Fetched(s.(viewers := info.userCount), Some(info))
    case RoomErr(_) => Fetched(s, None)
  }

  /**
    `connectToChat`: true exactly when `connect()` resolved; every failure, "LIVE has ended"
    included, is caught and gives false. It never touches status, store or outbox; only a
    debug connect changes `viewers`, through its extra room-info fetch.
  */
  function ConnectToChat(cfg: Config, s: State, connect: ConnectReply, intro: RoomReply): (r: Connection)
    ensures r.connected <==> connect.ConnectOk?
    ensures r.state.status == s.status && r.state.store == s.store && r.state.sent == s.sent
    ensures !(cfg.debug && connect.ConnectOk?) ==> r.state == s
    ensures cfg.debug && connect.ConnectOk? ==> r.state == FetchRoomInfo(s, intro).state
  {
    match connect
    case ConnectOk(_) => Connection(if cfg.debug then FetchRoomInfo(s, intro).state else s, true)
    case ConnectErr(_) => Connection(s, false)
  }

  /** The library calls `connectToChat` issues. */
  function ConnectCalls(cfg: Config, connect: ConnectReply): seq<Call> {
    [Connect] + (if cfg.debug && connect.ConnectOk? then [GetRoomInfo] else [])
  }

  /** The viewer count a tick decides on: the refreshed one, or the stale one when the fetch failed. */
  function Refreshed(s: State, reply: RoomReply): int {
    if reply.RoomOk? then reply.info.userCount else s.viewers
  }

  /** The viewer count after a debug connect: that of its extra fetch, or the one the tick decided on. */
  function IntroViewers(s: State, replies: Replies): int {
    if replies.intro.RoomOk? then replies.intro.info.userCount else Refreshed(s, replies.room)
  }

  /**
    The step both drivers share: fetch room info, then connect only when the viewer count
    is above one. It assigns no status itself.
  */
  function Poll(cfg: Config, s: State, replies: Replies): (r: Polled)
    ensures r.state.status == s.status && r.state.store == s.store && r.state.sent == s.sent
    ensures r.connected <==> Refreshed(s, replies.room) > 1 && replies.connect.ConnectOk?
    ensures !(cfg.debug && r.connected) ==> r.state.viewers == Refreshed(s, replies.room)
    ensures cfg.debug && r.connected ==> r.state.viewers == IntroViewers(s, replies)
    ensures r.calls == [GetRoomInfo]
                       + (if Refreshed(s, replies.room) > 1 then
                            [Connect] + (if cfg.debug && replies.connect.ConnectOk? then [GetRoomInfo] else [])
                          else [])
  {
    var fetched := FetchRoomInfo(s, replies.room);
    if fetched.state.viewers > 1 then
      var c := ConnectToChat(cfg, fetched.state, replies.connect, replies.intro);
      Polled(c.state, [GetRoomInfo] + ConnectCalls(cfg, replies.connect), c.connected)
    else
      Polled(fetched.state, [GetRoomInfo], false)
  }

  /**
    `runViaInterval`: offline polls (and never assigns status itself); connected drops to
    offline exactly when the viewer count is zero; disconnected waits out the cooldown and
    goes offline; ended stays as it is. No tick sends a message or writes the store.
  */
  function IntervalTick(cfg: Config, s: State, replies: Replies): (r: TickResult)
    ensures r.state.store == s.store && r.state.sent == s.sent
    ensures s.status == Offline ==>
              && r.state.status == Offline
              && (!(cfg.debug && Refreshed(s, replies.room) > 1 && replies.connect.ConnectOk?) ==>
                    r.state.viewers == Refreshed(s, replies.room))
              && (cfg.debug && Refreshed(s, replies.room) > 1 && replies.connect.ConnectOk? ==>
                    r.state.viewers == IntroViewers(s, replies))
              && r.calls == [GetRoomInfo]
                            + (if Refreshed(s, replies.room) > 1 then
                                 [Connect] + (if cfg.debug && replies.connect.ConnectOk? then [GetRoomInfo] else [])
                               else [])
    ensures s.status == Connected ==>
              && r.calls == []
              && r.state.viewers == s.viewers
              && (r.state.status == Offline <==> s.viewers == 0)
              && (r.state.status == Connected <==> s.viewers != 0)
    ensures s.status == Disconnected ==>
              r.calls == [Cooldown(CooldownSeconds)] && r.state.status == Offline && r.state.viewers == s.viewers
    ensures s.status == Ended ==> r.calls == [] && r.state == s
  {
    match s.status
    case Offline =>
      var p := Poll(cfg, s, replies);
      TickResult(p.state, p.calls)
    case Connected =>
      TickResult(if s.viewers == 0 then s.(status := Offline) else s, [])
    case Disconnected =>
      TickResult(s.(status := Offline), [Cooldown(CooldownSeconds)])
    case Ended =>
      TickResult(s, [])
  }

  /**
    `runViaExpress`: whatever the status, fetch room info, connect when the viewer count is
    above one, and disconnect only when that connect succeeded. It never assigns status,
    sends a message or writes the store.
  */
  function ExpressTick(cfg: Config, s: State, replies: Replies): (r: TickResult)
    ensures r.state.status == s.status && r.state.store == s.store && r.state.sent == s.sent
    ensures !(cfg.debug && Refreshed(s, replies.room) > 1 && replies.connect.ConnectOk?) ==>
              r.state.viewers == Refreshed(s, replies.room)
    ensures cfg.debug && Refreshed(s, replies.room) > 1 && replies.connect.ConnectOk? ==>
              r.state.viewers == IntroViewers(s, replies)
    ensures r.calls == [GetRoomInfo]
                       + (if Refreshed(s, replies.room) > 1 then
                            [Connect]
                            + (if cfg.debug && replies.connect.ConnectOk? then [GetRoomInfo] else [])
                            + (if replies.connect.ConnectOk? then [Disconnect] else [])
                          else [])
  {
    var p := Poll(cfg, s, replies);
    TickResult(p.state, p.calls + (if p.connected then [Disconnect] else []))
  }

  /**
    On an offline service the two drivers agree on the state they reach; the request-driven
    one only adds a disconnect after a successful connect.
  */
  lemma ExpressIsOfflineIntervalThenDisconnect(cfg: Config, s: State, replies: Replies)
    requires s.status == Offline
    ensures ExpressTick(cfg, s, replies).state == IntervalTick(cfg, s, replies).state
    ensures ExpressTick(cfg, s, replies).calls
            == IntervalTick(cfg, s, replies).calls
               + (if Refreshed(s, replies.room) > 1 && replies.connect.ConnectOk? then [Disconnect] else [])
  {
  }
}

=== FILE: transport.dfy ===
/** What the live-connection library answers, and the calls the core makes on it. */
module Transport {

  /** A rejection value: an error carrying a string `message`, or anything else that was thrown. */
  datatype Thrown = WithMessage(message: string) | WithoutMessage

  /** The two fields of a room-info reply the core reads: `user_count` and `create_time`. */
  datatype RoomInfo = RoomInfo(userCount: int, createTime: int)

  /** The outcome of `getRoomInfo()`. */
  datatype RoomReply = RoomOk(info: RoomInfo) | RoomErr(thrown: Thrown)

  /** The outcome of `connect()`. */
  datatype ConnectReply = ConnectOk(roomId: string) | ConnectErr(thrown: Thrown)

  /** A call the core issues on the library during a tick; `Cooldown` is the blocking sleep. */
  datatype Call = GetRoomInfo | Connect | Disconnect | Cooldown(seconds: nat)
}
